=== FILE: README.md ===
# Library catalogue: book repository and entity model

This project is a Dafny model of the core of a small library catalogue written in
Java. It covers two parts.

- The entity model. The abstract book `Libro` and its physical subclass
  `LibroFisico` are one datatype whose variant tag records the concrete class.
  The abstract user `Usuario` is a second datatype. Validating setters reject
  bad values before assigning, constructors check nothing, and `equals` means
  "same concrete class and same id".
- The in-memory `LibroRepository`. It is an ordered list of books with no
  duplicate ids, and it offers `save`, `findById`, `findAll`, `delete`,
  `update`, the case-insensitive field search `buscarPor` and the
  availability filter `findDisponibles`.

Objects are immutable values here. A setter or a repository operation returns
the new value, or the error the Java method throws. When an operation fails,
the caller still holds the value it passed in, which is how the model expresses
"fails before mutating anything". The repository singleton becomes an
explicitly constructed value (`Repositorio.Empty`), passed to each operation.

Files:

- `wrappers.dfy`: `Option` (for `java.util.Optional`) and `Result`.
- `errors.dfy`: the error kinds. In Java they are all
  `IllegalArgumentException`, told apart only by their message.
- `java_lang.dfy`: the Java semantics the core depends on. These are 32-bit
  `int`, `Objects.hash` of one `int`, `String.trim`/`isEmpty`,
  `toLowerCase` and `contains`.
- `libro.dfy`, `libro_fisico.dfy`, `usuario.dfy`: one module per entity class.
- `queries.dfy`: the stream `filter`/`findFirst` and the `indexOf` scan
  behind `List.remove`. These are generic over a predicate and come with an
  exact specification: the result holds the matching elements in stored
  order, each once (`IsSelection`). `Streams.SelectionUnique` proves that
  this specification determines the result.
- `libro_repository.dfy`: the repository operations and their lemmas.
- `scenario.dfy`: a worked example. It saves "Don Quijote", searches for it,
  marks it unavailable and updates it.

Three facts about the code shape the model:

- Constructors do not validate, so a newly constructed book or user can hold
  a non-positive id or a blank title. `Libros.NewLibro` and
  `Usuarios.NewUsuario` state exactly when the result is valid.
- `delete` uses `List.remove`, which compares with `equals`, so the class
  must match as well as the id. Deleting a book of another class that has a
  stored id leaves the repository unchanged.
- Every failure is an `IllegalArgumentException`, told apart only by its
  message. The model gives each message family its own error constructor.

## Model

| member | source | states |
|---|---|---|
| `JavaLang.ObjectsHashInjective` | src/model/entity/Libro.java:115-118 | `Objects.hash(id)` of one `int` is `31 + id` wrapped to 32 bits, so two different ids never share a hash |
| `JavaLang.ObjectsHash` | src/model/entity/Libro.java:117 | `Objects.hash` of one `int` is `31 + v` reduced to a 32-bit `int` |
| `JavaLang.TrimStart` | src/model/entity/Libro.java:46 | the leading part `trim` removes is all trimmable, and what remains is a suffix of the input that does not start with a trimmable character |
| `JavaLang.TrimEnd` | src/model/entity/Libro.java:46 | the trailing part `trim` removes is all trimmable, and what remains is a prefix of the input that does not end with a trimmable character |
| `JavaLang.Trim` | src/model/entity/Libro.java:45-50 | `trim()` leaves no trimmable character (code point up to U+0020) at either end, and returns the empty string exactly when every character is trimmable |
| `JavaLang.TrimIsSlice` | src/model/entity/Libro.java:46 | `trim()` returns the part of the input that starts where the leading trimmable run ends, with only trimmable characters cut off before and after it |
| `JavaLang.IsBlank` | src/model/entity/Libro.java:46 | `trim().isEmpty()` holds exactly when every character is trimmable (code point up to U+0020) |
| `JavaLang.LowerChar` | src/model/repository/LibroRepository.java:82-86 | a character is lowered by adding 32 exactly when it is an upper-case Latin-1 letter and is otherwise left alone, and the result is never upper-case |
| `JavaLang.ToLowerCase` | src/model/repository/LibroRepository.java:82-83 | lower-casing keeps the length and lowers each character on its own, and `ToLowerCaseIdempotent` shows that lowering twice is lowering once |
| `JavaLang.ToLowerCaseIdempotent` | src/model/repository/LibroRepository.java:82-86 | lowering an already lowered string changes nothing, so searching for a value and for its lower-cased form gives the same answer |
| `JavaLang.Contains` | src/model/repository/LibroRepository.java:86 | every string contains the empty string, a longer needle is never contained, and a contained needle's first and last characters occur in the haystack; `ContainsIffOccurs` gives the exact meaning |
| `JavaLang.ContainsIffOccurs` | src/model/repository/LibroRepository.java:86 | `contains` finds the needle exactly when it occurs at some index of the haystack |
| `JavaLang.ContainsSingleChar` | src/model/entity/Usuario.java:51-56 | `email.contains("@")` holds exactly when the character '@' appears in the address |
| `Libros.NewLibro` | src/model/entity/Libro.java:21-28 | the constructor stores every field verbatim with no validation and sets `disponible` to true; the result is valid exactly when the arguments would all pass the setters |
| `Libros.SetId` | src/model/entity/Libro.java:34-39 | fails exactly when id <= 0, with no new state; otherwise only `id` changes |
| `Libros.SetTitulo` | src/model/entity/Libro.java:45-50 | fails exactly when every character of the title is trimmable (blank after `trim`); otherwise only `titulo` changes |
| `Libros.SetAutor` | src/model/entity/Libro.java:56-61 | fails exactly when the author is blank after `trim`; otherwise only `autor` changes |
| `Libros.SetAnioPublicacion` | src/model/entity/Libro.java:67-72 | fails exactly when the year is <= 0; otherwise only `anioPublicacion` changes |
| `Libros.SetGenero` | src/model/entity/Libro.java:78-80 | always succeeds and changes only `genero` |
| `Libros.SetDisponible` | src/model/entity/Libro.java:86-88 | always succeeds and changes only `disponible` |
| `Libros.SettersPreserveValidity` | src/model/entity/Libro.java:34-88 | a setter that succeeds on a valid book returns a valid book |
| `Libros.Equals` | src/model/entity/Libro.java:107-113 | a book equals itself, books of different classes are never equal, and equal books have equal hash codes |
| `Libros.EqualsIsEquivalence` | src/model/entity/Libro.java:107-113 | `equals` (same class, same id) is reflexive, symmetric and transitive |
| `Libros.DifferentClassesNeverEqual` | src/model/entity/Libro.java:110 | books of different concrete classes are unequal even when their ids are the same |
| `Libros.HashCode` | src/model/entity/Libro.java:115-118 | `hashCode` is `Objects.hash(id)`: congruent to `id + 31` modulo 2^32 |
| `Libros.HashCodeAgreesWithEquals` | src/model/entity/Libro.java:107-118 | equal books have equal hashes, and two books have equal hashes exactly when their ids are equal |
| `Libros.GetTipoLibro` | src/model/entity/LibroFisico.java:45-48 | a physical book reports "Físico"; another class reports its own label |
| `LibrosFisicos.NewLibroFisico` | src/model/entity/LibroFisico.java:19-24 | sets the base fields as `Libro`'s constructor does (`disponible` true) and stores `ubicacion` and `numeroPaginas` unchecked; its kind is "Físico" |
| `LibrosFisicos.SetUbicacion` | src/model/entity/LibroFisico.java:30-32 | always succeeds, changes only `ubicacion`, and leaves the page count and every base field alone |
| `LibrosFisicos.SetNumeroPaginas` | src/model/entity/LibroFisico.java:38-43 | fails exactly when the count is <= 0; otherwise changes only `numeroPaginas`, leaving `ubicacion` and the base fields alone |
| `LibrosFisicos.FisicoSettersPreserveValidity` | src/model/entity/LibroFisico.java:30-43 | the subclass setters keep a valid physical book valid |
| `LibrosFisicos.FisicoSettersStayInTheirFields` | src/model/entity/Libro.java:34-88 | none of the six base-class setters (`setId`, `setTitulo`, `setAutor`, `setAnioPublicacion`, `setGenero`, `setDisponible`) changes `ubicacion` or `numeroPaginas`, and `setUbicacion` keeps the book a `LibroFisico` |
| `Usuarios.NewUsuario` | src/model/entity/Usuario.java:18-23 | stores `id`, `nombre`, `email` and `telefono` verbatim with no validation; the result is valid exactly when the arguments would pass the setters |
| `Usuarios.SetId` | src/model/entity/Usuario.java:29-34 | fails exactly when id <= 0; otherwise only `id` changes |
| `Usuarios.SetNombre` | src/model/entity/Usuario.java:40-45 | fails exactly when the name is blank after `trim`; otherwise only `nombre` changes |
| `Usuarios.SetEmail` | src/model/entity/Usuario.java:51-56 | fails exactly when the address has no '@'; any address with one is accepted and only `email` changes |
| `Usuarios.SetTelefono` | src/model/entity/Usuario.java:62-64 | always succeeds and changes only `telefono` |
| `Usuarios.SettersPreserveValidity` | src/model/entity/Usuario.java:29-64 | a setter that succeeds on a valid user returns a valid user |
| `Usuarios.Equals` | src/model/entity/Usuario.java:88-94 | a user equals itself, users of different classes are never equal, and equal users have equal hash codes |
| `Usuarios.EqualsIsEquivalence` | src/model/entity/Usuario.java:88-94 | `equals` (same class, same id) is an equivalence, and users of different classes are never equal |
| `Usuarios.HashCode` | src/model/entity/Usuario.java:96-99 | `hashCode` is `Objects.hash(id)`: congruent to `id + 31` modulo 2^32 |
| `Usuarios.HashCodeAgreesWithEquals` | src/model/entity/Usuario.java:88-99 | equal users have equal hashes, and equal hashes mean equal ids |
| `Streams.Filter` | src/model/repository/LibroRepository.java:85-87 | the stream filter never returns more elements than it was given, and each one it returns meets the predicate |
| `Streams.FirstIndex` | src/model/repository/LibroRepository.java:59-61 | the scan behind `List.remove` finds the first element meeting the predicate, or -1 when none does |
| `Streams.FilterSelects` | src/model/repository/LibroRepository.java:105-109 | the filter returns the elements at exactly the matching positions, in increasing order of position |
| `Streams.FilterIsSelection` | src/model/repository/LibroRepository.java:85-95 | the filter's result is the ordered selection of the matching elements |
| `Streams.SelectionUnique` | src/model/repository/LibroRepository.java:105-109 | two selections of the same list by the same predicate pick the same positions and hold the same elements, so the collected result of a stream filter is fixed by the list and the predicate |
| `Streams.FilterHead` | src/model/repository/LibroRepository.java:47-51 | `filter(...).findFirst()` is non-empty exactly when some element matches, and it returns the first one that does |
| `Streams.FilterAppend` | src/model/repository/LibroRepository.java:42 | filtering a list with an element appended is the filtered list plus that element, if it matches |
| `Streams.FilterKeepsAll` | src/model/repository/LibroRepository.java:85-87 | a predicate every element meets filters nothing out |
| `Repositorio.EmptyRepository` | src/model/repository/LibroRepository.java:21-23 | the repository starts with no books: `findAll` and `findDisponibles` are empty, `findById` finds nothing, and the distinct-id invariant holds |
| `Repositorio.FindById` | src/model/repository/LibroRepository.java:47-51 | empty exactly when no stored book has the id; otherwise returns the first stored book with that id |
| `Repositorio.Save` | src/model/repository/LibroRepository.java:37-44 | fails with the duplicate id exactly when a stored book has that id; otherwise the list grows by one, with the old books unchanged and in order and the saved book last, and the call returns that book |
| `Repositorio.SaveThenFindById` | src/model/repository/LibroRepository.java:37-51 | after a successful `save`, `findById` with its id returns the saved book |
| `Repositorio.FindAll` | src/model/repository/LibroRepository.java:54-56 | returns a list equal, element by element, to the stored books |
| `Repositorio.SavesKeepInsertionOrder` | src/model/repository/LibroRepository.java:37-56 | saving books with distinct new ids one after another succeeds, and `findAll` then lists them in the order they were saved |
| `Repositorio.Delete` | src/model/repository/LibroRepository.java:59-61 | unchanged (and no error) when no stored book equals the argument; otherwise only the first equal book (same class and id) is removed |
| `Repositorio.Update` | src/model/repository/LibroRepository.java:64-73 | fails with the id exactly when no stored book has it; otherwise it removes the first book with that id and appends the new one, so the length is kept and the new book is last |
| `Repositorio.DeleteFirstWithId` | src/model/repository/LibroRepository.java:65-70 | deleting the book `findById` returned removes it at its own position, because `equals` matches no earlier book |
| `Repositorio.RemoveAtKeepsUniqueIds` | src/model/repository/LibroRepository.java:59-61 | removing one element from a list with distinct ids keeps them distinct, and no book left has the removed id |
| `Repositorio.SaveKeepsUniqueIds` | src/model/repository/LibroRepository.java:39-42 | if stored ids are pairwise distinct, they still are after a successful `save` |
| `Repositorio.DeleteKeepsUniqueIds` | src/model/repository/LibroRepository.java:59-61 | if stored ids are pairwise distinct, they still are after `delete` |
| `Repositorio.UpdateKeepsUniqueIds` | src/model/repository/LibroRepository.java:64-73 | if stored ids are pairwise distinct, they still are after a successful `update` |
| `Repositorio.FindByIdUnique` | src/model/repository/LibroRepository.java:47-51 | with distinct ids, `findById` returns a book exactly when that book is stored with that id |
| `Repositorio.UpdateThenFindById` | src/model/repository/LibroRepository.java:64-73 | after a successful `update` on a catalogue with distinct ids, `findById` returns the new book |
| `Repositorio.ParseCampo` | src/model/repository/LibroRepository.java:83-97 | the field name is matched after lower-casing, against "titulo", "autor" and "genero" |
| `Repositorio.BuscarPor` | src/model/repository/LibroRepository.java:81-99 | fails exactly when the lower-cased field name is not titulo, autor or genero; otherwise returns, in stored order and each once, exactly the books whose lower-cased field contains the lower-cased value |
| `Repositorio.BuscarPorEmptyValue` | src/model/repository/LibroRepository.java:81-95 | searching a valid field for the empty string returns every stored book |
| `Repositorio.BuscarPorIgnoresCase` | src/model/repository/LibroRepository.java:82 | searching for a value and for its lower-cased form gives the same result |
| `Repositorio.FindDisponibles` | src/model/repository/LibroRepository.java:105-109 | returns, in stored order and each once, exactly the books whose `disponible` flag is true |
| `Repositorio.SaveThenFindDisponibles` | src/model/repository/LibroRepository.java:37-44 | a successful `save` adds the book to the end of the available list exactly when it is available |
| `Repositorio.UpdateUnavailable` | src/model/repository/LibroRepository.java:64-73 | after updating a book to unavailable, no available book has its id |
| `Escenario.SearchOneBook` | src/model/repository/LibroRepository.java:81-95 | a one-book catalogue answers a valid search with that book if its field matches, and with nothing if not |
| `Escenario.LowerThenFind` | src/model/repository/LibroRepository.java:86 | a value that a field holds at some index up to case, in any casing of the value, is found after both are lower-cased |
| `Escenario.LowerThenMiss` | src/model/repository/LibroRepository.java:86 | a lower-case value with a character the lowered field never contains is not found |
| `Escenario.QuijoteSaved` | src/model/repository/LibroRepository.java:37-44 | saving "Don Quijote" into an empty catalogue succeeds and leaves it as the only book |
| `Escenario.QuijoteFoundByTitle` | src/model/repository/LibroRepository.java:84-87 | searching titulo for "quijote" returns the book titled "Don Quijote" |
| `Escenario.GarciaIsNotTheAuthor` | src/model/repository/LibroRepository.java:88-91 | searching AUTOR for "garcía" returns nothing when the author is "Cervantes" |
| `Escenario.UnknownFieldRejected` | src/model/repository/LibroRepository.java:96-97 | searching the unknown field "isbn" is rejected |
| `Escenario.LentQuijoteNotAvailable` | src/model/repository/LibroRepository.java:64-73 | marking the book unavailable and updating it keeps it stored and removes it from `findDisponibles` |

## Left out

- The singleton `getInstance` (src/model/repository/LibroRepository.java:29-34): its global
  state and `synchronized` lazy initialisation become an explicit `Repo` value.
- `toString` of `Libro` and `Usuario`: presentation formatting only.
- `src/model/repository/Repository.java`: an interface with signatures only,
  and `LibroRepository` implements all of it. Dafny traits are not used, so it
  has no counterpart of its own.
- Concrete `Usuario` subclasses and any other `Libro` subclass are not part of
  this model. Each is reduced to its class name and the values its
  `getTipoUsuario`/`getLimiteLibros` or `getTipoLibro` return.
- Null arguments and the `NullPointerException` paths, such as `titulo == null`,
  a null `valor` in `buscarPor` or a null id in `findById`. Strings are never
  null here.
- Reference aliasing. `save` stores the caller's object without copying, so
  the caller can later break id uniqueness through a setter. Books here are
  values, so the model cannot express that hazard.
- `JavaLang.LowerChar`, `JavaLang.ToLowerCase`: lower only Latin-1 letters (A-Z and À-Þ except ×),
  because the full Unicode and locale-dependent mappings of `String.toLowerCase`
  (the Turkish dotless i, one-to-many mappings) are outside this model.
- Strings: a Dafny `string` is a sequence of Unicode scalar values, while a
  Java `String` is a sequence of UTF-16 code units. A Java string holding an
  unpaired surrogate therefore has no counterpart here. On well-formed strings,
  `trim` (its cut-off at U+0020), `contains` and the '@' test behave alike in both.
- Thread safety and the copy-on-read guarantee of `findAll`. With immutable
  sequences every result is already independent of later changes.

=== FILE: errors.dfy ===
/**
  The errors the catalogue raises. In the Java code every one of them is an
  `IllegalArgumentException` distinguished only by its message; here each
  message family is a constructor of its own.
*/
module Errors {

  datatype Error =
    /** A validating setter rejected the value for the named field. */
    | InvalidValue(field: string)
    /** `save` was given a book whose id is already stored. */
    | DuplicateId(id: int)
    /** `update` was given a book whose id is not stored. */
    | UnknownId(id: int)
    /** `buscarPor` was given a field name other than titulo, autor or genero. */
    | InvalidSearchField(campo: string)
}

=== FILE: java_lang.dfy ===
/**
  The pieces of `java.lang` the catalogue relies on: the 32-bit `int`,
  `Objects.hash` of one `int`, and the `String` operations `trim`, `isEmpty`,
  `toLowerCase` and `contains`.
*/
module JavaLang {

  /** A Java `int`: a 32-bit two's-complement integer. */
  type Int32 = x: int | -0x8000_0000 <= x < 0x8000_0000

  /** Narrows an unbounded integer to an `int` the way Java's 32-bit arithmetic overflows. */
  function Wrap(x: int): (r: Int32)
    ensures (r - x) % 0x1_0000_0000 == 0
  {
    (x + 0x8000_0000) % 0x1_0000_0000 - 0x8000_0000
  }

  /** `Objects.hash(v)` for a single `int`: `31 * 1 + Integer.hashCode(v)` in 32-bit arithmetic. */
  function ObjectsHash(v: Int32): (h: Int32)
    ensures (h - v - 31) % 0x1_0000_0000 == 0
  {
    Wrap(31 + v)
  }

  /** `Objects.hash` of one `int` never maps two different `int`s to the same hash. */
  lemma ObjectsHashInjective(a: Int32, b: Int32)
    requires ObjectsHash(a) == ObjectsHash(b)
    ensures a == b
  {
    var h := ObjectsHash(a);
    var q1 := (h - a - 31) / 0x1_0000_0000;
    var q2 := (h - b - 31) / 0x1_0000_0000;
    assert h - a - 31 == q1 * 0x1_0000_0000;
    assert h - b - 31 == q2 * 0x1_0000_0000;
    assert b - a == (q1 - q2) * 0x1_0000_0000;
  }

  /** The characters `String.trim()` strips from both ends: every code point up to the space. */
  predicate IsTrimmable(c: char) {
    c <= ' '
  }

  /** Drops the leading trimmable characters. */
  function TrimStart(s: string): (r: string)
    ensures |r| <= |s| && r == s[|s| - |r|..]
    ensures forall i :: 0 <= i < |s| - |r| ==> IsTrimmable(s[i])
    ensures |r| > 0 ==> !IsTrimmable(r[0])
  {
    if |s| > 0 && IsTrimmable(s[0]) then TrimStart(s[1..]) else s
  }

  /** Drops the trailing trimmable characters. */
  function TrimEnd(s: string): (r: string)
    ensures |r| <= |s| && r == s[..|r|]
    ensures forall i :: |r| <= i < |s| ==> IsTrimmable(s[i])
    ensures |r| > 0 ==> !IsTrimmable(r[|r| - 1])
  {
    if |s| > 0 && IsTrimmable(s[|s| - 1]) then TrimEnd(s[..|s| - 1]) else s
  }

  /** `String.trim()`: the string without its leading and trailing trimmable characters. */
  function Trim(s: string): (r: string)
    ensures |r| <= |s|
    ensures |r| > 0 ==> !IsTrimmable(r[0]) && !IsTrimmable(r[|r| - 1])
    ensures |r| == 0 <==> forall i :: 0 <= i < |s| ==> IsTrimmable(s[i])
  {
    var t := TrimStart(s);
    var r := TrimEnd(t);
    assert |r| > 0 ==> r[0] == t[0];
    assert |t| > 0 ==> t[0] == s[|s| - |t|];
    r
  }

  /** `trim` cuts only trimmable characters, and only from the two ends: the result sits in `s` where the leading run ends. */
  lemma TrimIsSlice(s: string)
    ensures TrimsTo(s, Trim(s), |s| - |TrimStart(s)|)
  {
    var t := TrimStart(s);
    var r := TrimEnd(t);
    var a := |s| - |t|;
    assert s[a..a + |r|] == r;
    assert OccursAt(s, r, a);
    forall i | a + |r| <= i < |s|
      ensures IsTrimmable(s[i])
    {
      assert s[i] == t[i - a];
    }
  }

  /** `r` is `s` from index `a` on, with only trimmable characters cut off before and after it. */
  predicate TrimsTo(s: string, r: string, a: int) {
    OccursAt(s, r, a)
    && (forall i :: 0 <= i < a ==> IsTrimmable(s[i]))
    && (forall i :: a + |r| <= i < |s| ==> IsTrimmable(s[i]))
  }

  /** `s.trim().isEmpty()`: the test the validating setters use for a blank string. */
  predicate IsBlank(s: string): (r: bool)
    ensures r <==> forall i :: 0 <= i < |s| ==> IsTrimmable(s[i])
  {
    |Trim(s)| == 0
  }

  /** The characters `Character.toLowerCase` changes within Latin-1: A to Z, and À to Þ except ×. */
  predicate IsUpper(c: char) {
    ('A' <= c <= 'Z') || ('À' <= c <= 'Þ' && c != '×')
  }

  /** `Character.toLowerCase` restricted to Latin-1; every other character is left as it is. */
  function LowerChar(c: char): (r: char)
    ensures !IsUpper(r)
    ensures IsUpper(c) ==> r as int == c as int + 32
    ensures !IsUpper(c) ==> r == c
  {
    if IsUpper(c) then (c as int + 32) as char else c
  }

  /** `String.toLowerCase`: lowers each character in place. */
  function ToLowerCase(s: string): (r: string)
    ensures |r| == |s|
    ensures forall i :: 0 <= i < |s| ==> r[i] == LowerChar(s[i])
  {
    if |s| == 0 then [] else [LowerChar(s[0])] + ToLowerCase(s[1..])
  }

  /** Lowering twice is lowering once. */
  lemma ToLowerCaseIdempotent(s: string)
    ensures ToLowerCase(ToLowerCase(s)) == ToLowerCase(s)
  {
    var l := ToLowerCase(s);
    var ll := ToLowerCase(l);
    assert forall i :: 0 <= i < |l| ==> ll[i] == l[i];
  }

  /** Text without upper-case letters is left as it is. */
  lemma {:induction false} ToLowerCaseFixesLowerText(s: string)
    requires forall i :: 0 <= i < |s| ==> !IsUpper(s[i])
    ensures ToLowerCase(s) == s
  {
    var r := ToLowerCase(s);
    assert forall i :: 0 <= i < |s| ==> r[i] == s[i];
  }

  /** `n` occurs in `h` starting at index `i`. */
  predicate OccursAt(h: string, n: string, i: int) {
    0 <= i && i + |n| <= |h| && h[i..i + |n|] == n
  }

  /** `String.contains`, as a left-to-right scan over the starting positions of `h`. */
  predicate Contains(h: string, n: string): (r: bool)
    decreases |h|
    ensures |n| == 0 ==> r
    ensures r ==> |n| <= |h|
    ensures r && |n| > 0 ==> n[0] in h && n[|n| - 1] in h
  {
    |n| <= |h| && (h[..|n|] == n || Contains(h[1..], n))
  }

  /** The scan finds `n` exactly when `n` occurs at some index of `h`. */
  lemma {:induction false} ContainsIffOccurs(h: string, n: string)
    ensures Contains(h, n) <==> exists i :: OccursAt(h, n, i)
    decreases |h|
  {
    if |n| <= |h| && h[..|n|] != n {
      ContainsIffOccurs(h[1..], n);
      if Contains(h[1..], n) {
        var i :| OccursAt(h[1..], n, i);
        assert h[i + 1..i + 1 + |n|] == h[1..][i..i + |n|];
        assert OccursAt(h, n, i + 1);
      }
      if exists i :: OccursAt(h, n, i) {
        var i :| OccursAt(h, n, i);
        if i > 0 {
          assert h[1..][i - 1..i - 1 + |n|] == h[i..i + |n|];
          assert OccursAt(h[1..], n, i - 1);
        }
      }
    } else if |n| <= |h| {
      assert OccursAt(h, n, 0);
    }
  }

  /** Every string contains the empty string. */
  lemma ContainsEmpty(h: string)
    ensures Contains(h, "")
  {
  }

  /** A one-character needle is contained exactly when that character appears. */
  lemma {:induction false} ContainsSingleChar(h: string, c: char)
    ensures Contains(h, [c]) <==> c in h
    decreases |h|
  {
    if |h| > 0 {
      ContainsSingleChar(h[1..], c);
      assert h == [h[0]] + h[1..];
    }
  }
}

=== FILE: libro.dfy ===
/**
  The abstract book entity (`Libro`) with its concrete class as a variant tag.
  Objects become immutable values: a setter returns the book as it is after the
  call, or the error it throws; on an error the caller keeps the value it had,
  which is how the Java setters check a value before they assign it.
*/
module Libros {
  import opened JavaLang
  import opened Wrappers
  import opened Errors

  /** The concrete class of a book; `Libro` itself is abstract. */
  datatype Variante =
    /** `LibroFisico`, with its own two fields. */
    | Fisico(ubicacion: string, numeroPaginas: Int32)
    /**
      A concrete subclass that is not part of this model, known by its class name and the label its `getTipoLibro` returns.
      Its class name is never "LibroFisico": that class is `Fisico`, so `SameClass` never equates the two variants.
    */
    | OtraClase(nombreClase: string, tipoLibro: string)

  datatype Libro = Libro(
    id: Int32,
    titulo: string,
    autor: string,
    anioPublicacion: Int32,
    genero: string,
    disponible: bool,
    variante: Variante)

  /** The fields a setter can change; `VarianteField` stands for the subclass's own fields. */
  datatype LibroField =
    | IdField | TituloField | AutorField | AnioField | GeneroField | DisponibleField | VarianteField

  /** `after` agrees with `before` on every field except possibly `f`. */
  predicate OnlyChanged(before: Libro, after: Libro, f: LibroField) {
    && (f == IdField || after.id == before.id)
    && (f == TituloField || after.titulo == before.titulo)
    && (f == AutorField || after.autor == before.autor)
    && (f == AnioField || after.anioPublicacion == before.anioPublicacion)
    && (f == GeneroField || after.genero == before.genero)
    && (f == DisponibleField || after.disponible == before.disponible)
    && (f == VarianteField || after.variante == before.variante)
  }

  /** What the validating setters guard: the state a book is in when every field went through a setter. */
  predicate ValidLibro(b: Libro) {
    && b.id > 0
    && !IsBlank(b.titulo)
    && !IsBlank(b.autor)
    && b.anioPublicacion > 0
    && (b.variante.Fisico? ==> b.variante.numeroPaginas > 0)
  }

  /** The `Libro` constructor as a subclass invokes it: stores everything as given, checks nothing, and marks the book available. */
  function NewLibro(variante: Variante, id: Int32, titulo: string, autor: string,
                    anioPublicacion: Int32, genero: string): (r: Libro)
    ensures r.id == id && r.titulo == titulo && r.autor == autor
    ensures r.anioPublicacion == anioPublicacion && r.genero == genero
    ensures r.variante == variante
    ensures r.disponible
    ensures ValidLibro(r) <==>
      id > 0 && !IsBlank(titulo) && !IsBlank(autor) && anioPublicacion > 0 &&
      (variante.Fisico? ==> variante.numeroPaginas > 0)
  {
    Libro(id, titulo, autor, anioPublicacion, genero, true, variante)
  }

  /** `setId`: rejects a non-positive id. */
  function SetId(b: Libro, id: Int32): (r: Result<Libro, Error>)
    ensures r.Failure? <==> id <= 0
    ensures r.Failure? ==> r.error == InvalidValue("id")
    ensures r.Success? ==> r.value.id == id && OnlyChanged(b, r.value, IdField)
  {
    if id <= 0 then Failure(InvalidValue("id")) else Success(b.(id := id))
  }

  /** `setTitulo`: rejects a title that is empty after trimming. */
  function SetTitulo(b: Libro, titulo: string): (r: Result<Libro, Error>)
    ensures r.Failure? <==> forall i :: 0 <= i < |titulo| ==> titulo[i] <= ' '
    ensures r.Failure? ==> r.error == InvalidValue("titulo")
    ensures r.Success? ==> r.value.titulo == titulo && OnlyChanged(b, r.value, TituloField)
  {
    if IsBlank(titulo) then Failure(InvalidValue("titulo")) else Success(b.(titulo := titulo))
  }

  /** `setAutor`: rejects an author that is empty after trimming. */
  function SetAutor(b: Libro, autor: string): (r: Result<Libro, Error>)
    ensures r.Failure? <==> forall i :: 0 <= i < |autor| ==> autor[i] <= ' '
    ensures r.Failure? ==> r.error == InvalidValue("autor")
    ensures r.Success? ==> r.value.autor == autor && OnlyChanged(b, r.value, AutorField)
  {
    if IsBlank(autor) then Failure(InvalidValue("autor")) else Success(b.(autor := autor))
  }

  /** `setAnioPublicacion`: rejects a non-positive year. */
  function SetAnioPublicacion(b: Libro, anio: Int32): (r: Result<Libro, Error>)
    ensures r.Failure? <==> anio <= 0
    ensures r.Failure? ==> r.error == InvalidValue("anioPublicacion")
    ensures r.Success? ==> r.value.anioPublicacion == anio && OnlyChanged(b, r.value, AnioField)
  {
    if anio <= 0 then Failure(InvalidValue("anioPublicacion")) else Success(b.(anioPublicacion := anio))
  }

  /** `setGenero`: accepts any genre. */
  function SetGenero(b: Libro, genero: string): (r: Libro)
    ensures r.genero == genero && OnlyChanged(b, r, GeneroField)
  {
    b.(genero := genero)
  }

  /** `setDisponible`: accepts either flag. */
  function SetDisponible(b: Libro, disponible: bool): (r: Libro)
    ensures r.disponible == disponible && OnlyChanged(b, r, DisponibleField)
  {
    b.(disponible := disponible)
  }

  /** A setter that succeeds never takes a valid book out of the valid state. */
  lemma SettersPreserveValidity(b: Libro, id: Int32, titulo: string, autor: string, anio: Int32,
                                genero: string, disponible: bool)
    requires ValidLibro(b)
    ensures SetId(b, id).Success? ==> ValidLibro(SetId(b, id).value)
    ensures SetTitulo(b, titulo).Success? ==> ValidLibro(SetTitulo(b, titulo).value)
    ensures SetAutor(b, autor).Success? ==> ValidLibro(SetAutor(b, autor).value)
    ensures SetAnioPublicacion(b, anio).Success? ==> ValidLibro(SetAnioPublicacion(b, anio).value)
    ensures ValidLibro(SetGenero(b, genero))
    ensures ValidLibro(SetDisponible(b, disponible))
  {
  }

  /** Two variants are of the same Java class (`getClass() == o.getClass()`). */
  predicate SameClass(x: Variante, y: Variante) {
    match x
    case Fisico(_, _) => y.Fisico?
    case OtraClase(n, _) => y.OtraClase? && y.nombreClase == n
  }

  /** `equals`: same concrete class and same id; every other field is ignored. */
  predicate Equals(a: Libro, b: Libro): (r: bool)
    ensures a == b ==> r
    ensures r ==> HashCode(a) == HashCode(b)
    ensures !SameClass(a.variante, b.variante) ==> !r
  {
    SameClass(a.variante, b.variante) && a.id == b.id
  }

  /** `equals` is an equivalence relation. */
  lemma EqualsIsEquivalence(a: Libro, b: Libro, c: Libro)
    ensures Equals(a, a)
    ensures Equals(a, b) ==> Equals(b, a)
    ensures Equals(a, b) && Equals(b, c) ==> Equals(a, c)
  {
  }

  /** Books of different classes are never equal, whatever their ids. */
  lemma DifferentClassesNeverEqual(a: Libro, b: Libro)
    requires !SameClass(a.variante, b.variante)
    ensures !Equals(a, b) && !Equals(b, a)
  {
  }

  /** `hashCode`: `Objects.hash(id)`, so it is a function of the id alone. */
  function HashCode(b: Libro): (h: Int32)
    ensures (h - b.id - 31) % 0x1_0000_0000 == 0
  {
    ObjectsHash(b.id)
  }

  /** Equal books hash alike, and equal hashes mean equal ids. */
  lemma HashCodeAgreesWithEquals(a: Libro, b: Libro)
    ensures Equals(a, b) ==> HashCode(a) == HashCode(b)
    ensures HashCode(a) == HashCode(b) <==> a.id == b.id
  {
    if HashCode(a) == HashCode(b) {
      ObjectsHashInjective(a.id, b.id);
    }
  }

  /** `getTipoLibro`: the label of the book's concrete class. */
  function GetTipoLibro(b: Libro): (r: string)
    ensures b.variante.Fisico? ==> r == "Físico"
    ensures b.variante.OtraClase? ==> r == b.variante.tipoLibro
  {
    match b.variante
    case Fisico(_, _) => "Físico"
    case OtraClase(_, tipo) => tipo
  }
}

=== FILE: libro_fisico.dfy ===
/** `LibroFisico`: the physical-book subclass, adding a shelf location and a page count. */
module LibrosFisicos {
  import opened JavaLang
  import opened Wrappers
  import opened Errors
  import opened Libros

  /** The `LibroFisico` constructor: the base fields as `Libro`'s constructor stores them, plus its own two, none of them checked. */
  function NewLibroFisico(id: Int32, titulo: string, autor: string, anioPublicacion: Int32,
                          genero: string, ubicacion: string, numeroPaginas: Int32): (r: Libro)
    ensures r.id == id && r.titulo == titulo && r.autor == autor
    ensures r.anioPublicacion == anioPublicacion && r.genero == genero
    ensures r.disponible
    ensures r.variante.Fisico? && r.variante.ubicacion == ubicacion && r.variante.numeroPaginas == numeroPaginas
    ensures GetTipoLibro(r) == "Físico"
  {
    NewLibro(Fisico(ubicacion, numeroPaginas), id, titulo, autor, anioPublicacion, genero)
  }

  /** `setUbicacion`: accepts any location and leaves the base fields and the page count alone. */
  function SetUbicacion(b: Libro, ubicacion: string): (r: Libro)
    requires b.variante.Fisico?
    ensures r.variante.Fisico? && r.variante.ubicacion == ubicacion
    ensures r.variante.numeroPaginas == b.variante.numeroPaginas
    ensures OnlyChanged(b, r, VarianteField)
  {
    b.(variante := b.variante.(ubicacion := ubicacion))
  }

  /** `setNumeroPaginas`: rejects a non-positive page count; otherwise changes only the page count. */
  function SetNumeroPaginas(b: Libro, numeroPaginas: Int32): (r: Result<Libro, Error>)
    requires b.variante.Fisico?
    ensures r.Failure? <==> numeroPaginas <= 0
    ensures r.Failure? ==> r.error == InvalidValue("numeroPaginas")
    ensures r.Success? ==> r.value.variante.Fisico? && r.value.variante.numeroPaginas == numeroPaginas
    ensures r.Success? ==> r.value.variante.ubicacion == b.variante.ubicacion
    ensures r.Success? ==> OnlyChanged(b, r.value, VarianteField)
  {
    if numeroPaginas <= 0 then Failure(InvalidValue("numeroPaginas"))
    else Success(b.(variante := b.variante.(numeroPaginas := numeroPaginas)))
  }

  /** The subclass setters keep a valid book valid. */
  lemma FisicoSettersPreserveValidity(b: Libro, ubicacion: string, numeroPaginas: Int32)
    requires b.variante.Fisico?
    ensures ValidLibro(b) ==> ValidLibro(SetUbicacion(b, ubicacion))
    ensures ValidLibro(b) && SetNumeroPaginas(b, numeroPaginas).Success? ==>
      ValidLibro(SetNumeroPaginas(b, numeroPaginas).value)
  {
  }

  /** The base-class setters never touch the subclass fields, and `setUbicacion` keeps the class. */
  lemma FisicoSettersStayInTheirFields(b: Libro, ubicacion: string, id: Int32, titulo: string, autor: string,
                                       anio: Int32, genero: string, disponible: bool)
    requires b.variante.Fisico?
    ensures SetId(b, id).Success? ==> SetId(b, id).value.variante == b.variante
    ensures SetTitulo(b, titulo).Success? ==> SetTitulo(b, titulo).value.variante == b.variante
    ensures SetAutor(b, autor).Success? ==> SetAutor(b, autor).value.variante == b.variante
    ensures SetAnioPublicacion(b, anio).Success? ==> SetAnioPublicacion(b, anio).value.variante == b.variante
    ensures SetGenero(b, genero).variante == b.variante
    ensures SetDisponible(b, disponible).variante == b.variante
    ensures SameClass(SetUbicacion(b, ubicacion).variante, b.variante)
  {
  }
}

=== FILE: libro_repository.dfy ===
/**
  `LibroRepository`: the book catalogue as an ordered list of books. The
  process-wide singleton becomes an explicit value, and each mutating
  operation returns the repository as it is after the call.
*/
module Repositorio {
  import opened JavaLang
  import opened Wrappers
  import opened Errors
  import opened Libros
  import opened Streams

  /** The three fields `buscarPor` can search. */
  datatype CampoBusqueda = Titulo | Autor | Genero

  /** The value of a searchable field. */
  function ValorDeCampo(b: Libro, c: CampoBusqueda): string {
    match c
    case Titulo => b.titulo
    case Autor => b.autor
    case Genero => b.genero
  }

  /** The stream predicate of `findById`: `libro.getId() == id`. */
  function ConId(id: int): Libro -> bool {
    (b: Libro) => b.id == id
  }

  /** The test `List.remove(o)` applies to each element: `o.equals(element)`. */
  function IgualA(o: Libro): Libro -> bool {
    (b: Libro) => Equals(o, b)
  }

  /** The stream predicate of `buscarPor`: the lower-cased field contains the already lower-cased value. */
  function CampoContiene(c: CampoBusqueda, valorLower: string): Libro -> bool {
    (b: Libro) => Contains(ToLowerCase(ValorDeCampo(b, c)), valorLower)
  }

  /** The stream predicate of `findDisponibles`: `Libro::isDisponible`. */
  function EsDisponible(): Libro -> bool {
    (b: Libro) => b.disponible
  }

  /** The backing `ArrayList<Libro>`, in insertion order. */
  datatype Repo = Repo(libros: seq<Libro>)

  /** What `save` and `update` leave behind: the repository after the call and the book the call returns. */
  datatype Stored = Stored(repo: Repo, libro: Libro)

  /** The private constructor: an empty list. */
  const Empty: Repo := Repo([])

  /** The new repository holds no book: every lookup is empty, and the id invariant holds from the start. */
  lemma EmptyRepository(id: Int32)
    ensures FindAll(Empty) == []
    ensures FindById(Empty, id) == None
    ensures FindDisponibles(Empty) == []
    ensures UniqueIds(Empty.libros)
  {
  }

  /** No two stored books share an id. */
  predicate UniqueIds(s: seq<Libro>) {
    forall i, j :: 0 <= i < j < |s| ==> s[i].id != s[j].id
  }

  /** Some stored book has the id. */
  predicate HasId(s: seq<Libro>, id: int) {
    exists i :: 0 <= i < |s| && s[i].id == id
  }

  /** Position `k` holds the first stored book with the id. */
  predicate IsFirstWithId(s: seq<Libro>, k: int, id: int) {
    0 <= k < |s| && s[k].id == id && forall j :: 0 <= j < k ==> s[j].id != id
  }

  /** Position `k` holds the first stored book that `b.equals`. */
  predicate IsFirstEqualTo(s: seq<Libro>, k: int, b: Libro) {
    0 <= k < |s| && Equals(b, s[k]) && forall j :: 0 <= j < k ==> !Equals(b, s[j])
  }

  /** `findById`: the first stored book with the id, found by filtering and taking the first. */
  function FindById(repo: Repo, id: Int32): (r: Option<Libro>)
    ensures r.None? <==> forall i :: 0 <= i < |repo.libros| ==> repo.libros[i].id != id
    ensures r.Some? ==> exists k :: IsFirstWithId(repo.libros, k, id) && repo.libros[k] == r.value
  {
    var m := Filter(repo.libros, ConId(id));
    FilterHead(repo.libros, ConId(id));
    if |m| == 0 then None else Some(m[0])
  }

  /** `save`: appends a book whose id is new; a duplicate id is rejected and nothing changes. */
  function Save(repo: Repo, b: Libro): (r: Result<Stored, Error>)
    ensures r.Failure? <==> HasId(repo.libros, b.id)
    ensures r.Failure? ==> r.error == DuplicateId(b.id)
    ensures r.Success? ==> r.value.libro == b
    ensures r.Success? ==> |r.value.repo.libros| == |repo.libros| + 1
    ensures r.Success? ==> r.value.repo.libros[..|repo.libros|] == repo.libros
    ensures r.Success? ==> r.value.repo.libros[|repo.libros|] == b
  {
    if FindById(repo, b.id).Some? then Failure(DuplicateId(b.id))
    else Success(Stored(Repo(repo.libros + [b]), b))
  }

  /** `findAll`: a fresh list with the stored books in stored order. */
  function FindAll(repo: Repo): (r: seq<Libro>)
    ensures |r| == |repo.libros|
    ensures forall i :: 0 <= i < |r| ==> r[i] == repo.libros[i]
  {
    repo.libros
  }

  /** `delete`: removes the first stored book equal to the argument (same class and id); does nothing if there is none. */
  function Delete(repo: Repo, b: Libro): (r: Repo)
    ensures (forall i :: 0 <= i < |repo.libros| ==> !Equals(b, repo.libros[i])) ==> r == repo
    ensures forall k :: IsFirstEqualTo(repo.libros, k, b) ==> r.libros == repo.libros[..k] + repo.libros[k + 1..]
  {
    var k := FirstIndex(repo.libros, IgualA(b));
    if k < 0 then repo else Repo(repo.libros[..k] + repo.libros[k + 1..])
  }

  /** `update`: an unknown id is rejected and nothing changes; otherwise the stored book with
      that id is removed and the new one appended, so it moves to the end. */
  function Update(repo: Repo, b: Libro): (r: Result<Stored, Error>)
    ensures r.Failure? <==> !HasId(repo.libros, b.id)
    ensures r.Failure? ==> r.error == UnknownId(b.id)
    ensures r.Success? ==> r.value.libro == b
    ensures r.Success? ==> |r.value.repo.libros| == |repo.libros| && r.value.repo.libros[|repo.libros| - 1] == b
    ensures r.Success? ==> exists k :: IsFirstWithId(repo.libros, k, b.id) &&
                                       r.value.repo.libros == repo.libros[..k] + repo.libros[k + 1..] + [b]
  {
    match FindById(repo, b.id)
    case None => Failure(UnknownId(b.id))
    case Some(existente) =>
      DeleteFirstWithId(repo, existente);
      Success(Stored(Repo(Delete(repo, existente).libros + [b]), b))
  }

  /** Deleting the first book with some id removes it at its own position: `equals` finds nothing earlier. */
  lemma {:induction false} DeleteFirstWithId(repo: Repo, existente: Libro)
    requires exists k :: IsFirstWithId(repo.libros, k, existente.id) && repo.libros[k] == existente
    ensures exists k :: IsFirstWithId(repo.libros, k, existente.id) && repo.libros[k] == existente &&
                        Delete(repo, existente).libros == repo.libros[..k] + repo.libros[k + 1..]
  {
    var k :| IsFirstWithId(repo.libros, k, existente.id) && repo.libros[k] == existente;
    assert IsFirstEqualTo(repo.libros, k, existente);
  }

  /** The recognised `buscarPor` field names, matched after lower-casing. */
  function ParseCampo(campo: string): (r: Option<CampoBusqueda>)
    ensures r == Some(Titulo) <==> ToLowerCase(campo) == "titulo"
    ensures r == Some(Autor) <==> ToLowerCase(campo) == "autor"
    ensures r == Some(Genero) <==> ToLowerCase(campo) == "genero"
  {
    var c := ToLowerCase(campo);
    if c == "titulo" then Some(Titulo)
    else if c == "autor" then Some(Autor)
    else if c == "genero" then Some(Genero)
    else None
  }

  /** `buscarPor`: the stored books whose lower-cased field contains the lower-cased value, in stored
      order; a field name other than titulo, autor or genero, in any case, is rejected. */
  function BuscarPor(repo: Repo, campo: string, valor: string): (r: Result<seq<Libro>, Error>)
    ensures r.Failure? <==> ToLowerCase(campo) !in {"titulo", "autor", "genero"}
    ensures r.Failure? ==> r.error == InvalidSearchField(campo)
    ensures r.Success? ==> ParseCampo(campo).Some?
    ensures r.Success? ==> IsSelection(repo.libros, r.value, CampoContiene(ParseCampo(campo).value, ToLowerCase(valor)))
  {
    match ParseCampo(campo)
    case None => Failure(InvalidSearchField(campo))
    case Some(c) =>
      var q := CampoContiene(c, ToLowerCase(valor));
      FilterIsSelection(repo.libros, q);
      Success(Filter(repo.libros, q))
  }

  /** `findDisponibles`: the available books, in stored order. */
  function FindDisponibles(repo: Repo): (r: seq<Libro>)
    ensures IsSelection(repo.libros, r, EsDisponible())
  {
    FilterIsSelection(repo.libros, EsDisponible());
    Filter(repo.libros, EsDisponible())
  }

  /** After a successful `save`, `findById` with the saved id returns the saved book. */
  lemma {:induction false} SaveThenFindById(repo: Repo, b: Libro)
    requires Save(repo, b).Success?
    ensures FindById(Save(repo, b).value.repo, b.id) == Some(b)
  {
    var s := repo.libros;
    var after := Save(repo, b).value.repo;
    var t := after.libros;
    assert t == s + [b];
    assert t[|s|].id == b.id;
    var r := FindById(after, b.id);
    assert r.Some?;
    var k :| IsFirstWithId(t, k, b.id) && t[k] == r.value;
    assert forall i :: 0 <= i < |s| ==> t[i] == s[i] && s[i].id != b.id;
    assert k == |s|;
  }

  /** Removing one element keeps ids distinct. */
  lemma {:induction false} RemoveAtKeepsUniqueIds(s: seq<Libro>, k: int)
    requires UniqueIds(s) && 0 <= k < |s|
    ensures UniqueIds(s[..k] + s[k + 1..])
    ensures var t := s[..k] + s[k + 1..]; forall i :: 0 <= i < |t| ==> t[i].id != s[k].id
  {
    var t := s[..k] + s[k + 1..];
    assert forall i :: 0 <= i < |t| ==> t[i] == if i < k then s[i] else s[i + 1];
  }

  /** `save` keeps stored ids pairwise distinct. */
  lemma {:induction false} SaveKeepsUniqueIds(repo: Repo, b: Libro)
    requires UniqueIds(repo.libros) && Save(repo, b).Success?
    ensures UniqueIds(Save(repo, b).value.repo.libros)
  {
    var t := Save(repo, b).value.repo.libros;
    assert t == repo.libros + [b];
    assert forall i :: 0 <= i < |repo.libros| ==> t[i] == repo.libros[i] && repo.libros[i].id != b.id;
  }

  /** `delete` keeps stored ids pairwise distinct. */
  lemma {:induction false} DeleteKeepsUniqueIds(repo: Repo, b: Libro)
    requires UniqueIds(repo.libros)
    ensures UniqueIds(Delete(repo, b).libros)
  {
    var k := FirstIndex(repo.libros, IgualA(b));
    if k >= 0 {
      assert IsFirstEqualTo(repo.libros, k, b);
      RemoveAtKeepsUniqueIds(repo.libros, k);
    }
  }

  /** `update` keeps stored ids pairwise distinct: the book it appends replaces the only one with its id. */
  lemma {:induction false} UpdateKeepsUniqueIds(repo: Repo, b: Libro)
    requires UniqueIds(repo.libros) && Update(repo, b).Success?
    ensures UniqueIds(Update(repo, b).value.repo.libros)
  {
    var s := repo.libros;
    var j :| IsFirstWithId(s, j, b.id) && Update(repo, b).value.repo.libros == s[..j] + s[j + 1..] + [b];
    RemoveAtKeepsUniqueIds(s, j);
    var rest := s[..j] + s[j + 1..];
    var t := rest + [b];
    assert forall i :: 0 <= i < |rest| ==> t[i] == rest[i] && rest[i].id != b.id;
  }

  /** With distinct ids, `findById` returns a book exactly when it is stored with that id. */
  lemma {:induction false} FindByIdUnique(repo: Repo, id: Int32, b: Libro)
    requires UniqueIds(repo.libros)
    ensures FindById(repo, id) == Some(b) <==> b in repo.libros && b.id == id
  {
    var s := repo.libros;
    if b in s && b.id == id {
      var i :| 0 <= i < |s| && s[i] == b;
      assert FindById(repo, id).Some?;
      var k :| IsFirstWithId(s, k, id) && s[k] == FindById(repo, id).value;
      assert i == k;
    }
  }

  /** An `update` that succeeds on a catalogue with distinct ids makes `findById` return the new book. */
  lemma {:induction false} UpdateThenFindById(repo: Repo, b: Libro)
    requires UniqueIds(repo.libros) && Update(repo, b).Success?
    ensures FindById(Update(repo, b).value.repo, b.id) == Some(b)
  {
    var after := Update(repo, b).value.repo;
    UpdateKeepsUniqueIds(repo, b);
    assert after.libros[|after.libros| - 1] == b;
    FindByIdUnique(after, b.id, b);
  }

  /** Saves one after the other, stopping at the first rejection. */
  function SaveAll(repo: Repo, bs: seq<Libro>): Result<Repo, Error>
    decreases |bs|
  {
    if |bs| == 0 then Success(repo)
    else match Save(repo, bs[0])
      case Failure(e) => Failure(e)
      case Success(st) => SaveAll(st.repo, bs[1..])
  }

  /** Saving books with distinct, new ids one after the other leaves `findAll` listing them in the order saved. */
  lemma {:induction false} SavesKeepInsertionOrder(repo: Repo, bs: seq<Libro>)
    requires UniqueIds(repo.libros + bs)
    ensures SaveAll(repo, bs).Success?
    ensures FindAll(SaveAll(repo, bs).value) == repo.libros + bs
    decreases |bs|
  {
    var s := repo.libros;
    if |bs| == 0 {
      assert s + bs == s;
    } else {
      var all := s + bs;
      assert all[|s|] == bs[0];
      forall i | 0 <= i < |s|
        ensures s[i].id != bs[0].id
      {
        assert all[i] == s[i];
      }
      var next := Repo(s + [bs[0]]);
      assert Save(repo, bs[0]) == Success(Stored(next, bs[0]));
      assert next.libros + bs[1..] == all;
      SavesKeepInsertionOrder(next, bs[1..]);
    }
  }

  /** A successful `save` adds the book to the end of `findDisponibles` exactly when it is available. */
  lemma {:induction false} SaveThenFindDisponibles(repo: Repo, b: Libro)
    requires Save(repo, b).Success?
    ensures FindDisponibles(Save(repo, b).value.repo) ==
            FindDisponibles(repo) + (if b.disponible then [b] else [])
  {
    FilterAppend(repo.libros, [b], EsDisponible());
  }

  /** Marking a book unavailable and updating it removes its id from `findDisponibles`. */
  lemma {:induction false} UpdateUnavailable(repo: Repo, b: Libro)
    requires UniqueIds(repo.libros) && Update(repo, b).Success? && !b.disponible
    ensures forall x :: x in FindDisponibles(Update(repo, b).value.repo) ==> x.id != b.id
  {
    var s := repo.libros;
    var j :| IsFirstWithId(s, j, b.id) && Update(repo, b).value.repo.libros == s[..j] + s[j + 1..] + [b];
    RemoveAtKeepsUniqueIds(s, j);
  }

  /** Searching a valid field for the empty string returns every stored book. */
  lemma {:induction false} BuscarPorEmptyValue(repo: Repo, campo: string)
    requires ParseCampo(campo).Some?
    ensures BuscarPor(repo, campo, "") == Success(repo.libros)
  {
    var c := ParseCampo(campo).value;
    var q := CampoContiene(c, "");
    forall i | 0 <= i < |repo.libros|
      ensures q(repo.libros[i])
    {
      ContainsEmpty(ToLowerCase(ValorDeCampo(repo.libros[i], c)));
    }
    FilterKeepsAll(repo.libros, q);
  }

  /** The case of the searched value never matters: searching for its lower-cased form finds the same books. */
  lemma {:induction false} BuscarPorIgnoresCase(repo: Repo, campo: string, valor: string)
    ensures BuscarPor(repo, campo, ToLowerCase(valor)) == BuscarPor(repo, campo, valor)
  {
    ToLowerCaseIdempotent(valor);
  }
}

=== FILE: queries.dfy ===
/**
  The `java.util` sequence operations `LibroRepository` relies on: a stream's
  `filter` then `collect` or `findFirst`, and the `indexOf` scan behind
  `List.remove`. They are generic in the element type and the predicate.
*/
module Streams {

  /** `stream().filter(p).collect(toList())`. */
  function Filter<T>(s: seq<T>, p: T -> bool): (r: seq<T>)
    ensures |r| <= |s|
    ensures forall k :: 0 <= k < |r| ==> p(r[k])
  {
    if |s| == 0 then []
    else if p(s[0]) then [s[0]] + Filter(s[1..], p)
    else Filter(s[1..], p)
  }

  /** The index of the first element meeting `p`, or -1: the scan of `indexOf` and of `findFirst`. */
  function FirstIndex<T>(s: seq<T>, p: T -> bool): (k: int)
    ensures -1 <= k < |s|
    ensures k >= 0 ==> p(s[k])
    ensures forall j :: 0 <= j < |s| && (k < 0 || j < k) ==> !p(s[j])
  {
    if |s| == 0 then -1
    else if p(s[0]) then 0
    else var k := FirstIndex(s[1..], p); if k < 0 then -1 else k + 1
  }

  /** `r` is `s` read at the increasing positions `idx`, and those are exactly the positions meeting `p`. */
  ghost predicate SelectsAt<T>(s: seq<T>, r: seq<T>, p: T -> bool, idx: seq<int>) {
    && |idx| == |r|
    && (forall k :: 0 <= k < |idx| ==> 0 <= idx[k] < |s| && r[k] == s[idx[k]])
    && (forall k, l :: 0 <= k < l < |idx| ==> idx[k] < idx[l])
    && (forall i :: 0 <= i < |s| ==> (p(s[i]) <==> i in idx))
  }

  /** `r` holds exactly the elements of `s` that meet `p`, each once, in the order of `s`. */
  ghost predicate IsSelection<T>(s: seq<T>, r: seq<T>, p: T -> bool) {
    exists idx :: SelectsAt(s, r, p, idx)
  }

  /** A selection is unique: the positions, and so the selected elements, are fixed by `s` and `p`. */
  lemma {:induction false} SelectionUnique<T>(s: seq<T>, r1: seq<T>, r2: seq<T>, p: T -> bool,
                                              i1: seq<int>, i2: seq<int>)
    requires SelectsAt(s, r1, p, i1) && SelectsAt(s, r2, p, i2)
    ensures i1 == i2 && r1 == r2
  {
    forall k | 0 <= k < |i1| && k < |i2|
      ensures i1[k] == i2[k]
    {
      SelectionAgreesAt(s, r1, r2, p, i1, i2, k);
    }
    if |i1| > |i2| {
      SelectionLonger(s, r1, r2, p, i1, i2);
    } else if |i2| > |i1| {
      SelectionLonger(s, r2, r1, p, i2, i1);
    }
  }

  /** Two selections agree at every position both of them have. */
  lemma {:induction false} SelectionAgreesAt<T>(s: seq<T>, r1: seq<T>, r2: seq<T>, p: T -> bool,
                                                i1: seq<int>, i2: seq<int>, k: int)
    requires SelectsAt(s, r1, p, i1) && SelectsAt(s, r2, p, i2)
    requires 0 <= k < |i1| && k < |i2|
    ensures i1[k] == i2[k]
    decreases k
  {
    forall j | 0 <= j < k
      ensures i1[j] == i2[j]
    {
      SelectionAgreesAt(s, r1, r2, p, i1, i2, j);
    }
    assert i1[k] in i1 && i2[k] in i2;
    var m :| 0 <= m < |i2| && i2[m] == i1[k];
    var n :| 0 <= n < |i1| && i1[n] == i2[k];
    assert m >= k;
    assert n >= k;
    assert i2[k] <= i2[m];
    assert i1[k] <= i1[n];
  }

  /** No selection has a position more than another one of the same `s` and `p`. */
  lemma {:induction false} SelectionLonger<T>(s: seq<T>, r1: seq<T>, r2: seq<T>, p: T -> bool,
                                              i1: seq<int>, i2: seq<int>)
    requires SelectsAt(s, r1, p, i1) && SelectsAt(s, r2, p, i2)
    requires forall k :: 0 <= k < |i1| && k < |i2| ==> i1[k] == i2[k]
    ensures |i1| <= |i2|
  {
    if |i1| > |i2| {
      SelectedIsIn(s, r1, r2, p, i1, i2, |i2|);
      assert false;
    }
  }

  /** Every position one selection picks, any other selection of the same `s` and `p` picks too. */
  lemma SelectedIsIn<T>(s: seq<T>, r1: seq<T>, r2: seq<T>, p: T -> bool, i1: seq<int>, i2: seq<int>, k: int)
    requires SelectsAt(s, r1, p, i1) && SelectsAt(s, r2, p, i2)
    requires 0 <= k < |i1|
    ensures exists m :: 0 <= m < |i2| && i2[m] == i1[k]
  {
    assert i1[k] in i1;
  }

  /** Adds one to every position. */
  function Shift(idx: seq<int>): (r: seq<int>)
    ensures |r| == |idx|
    ensures forall k :: 0 <= k < |idx| ==> r[k] == idx[k] + 1
    ensures forall i :: i in r <==> i - 1 in idx
    ensures (forall k, l :: 0 <= k < l < |idx| ==> idx[k] < idx[l]) ==>
      forall k, l :: 0 <= k < l < |r| ==> r[k] < r[l]
  {
    seq(|idx|, k requires 0 <= k < |idx| => idx[k] + 1)
  }

  /** The filter keeps exactly the matching elements, in stored order; `idx` is where it found them. */
  lemma {:induction false} FilterSelects<T>(s: seq<T>, p: T -> bool) returns (idx: seq<int>)
    ensures SelectsAt(s, Filter(s, p), p, idx)
    decreases |s|
  {
    if |s| == 0 {
      idx := [];
    } else {
      var rest := FilterSelects(s[1..], p);
      var shifted := Shift(rest);
      ShiftTail(s, p, rest);
      if p(s[0]) {
        idx := [0] + shifted;
        PrependSelects(s, Filter(s[1..], p), p, shifted);
      } else {
        idx := shifted;
        SkipSelects(s, Filter(s[1..], p), p, shifted);
      }
    }
  }

  /** The tail's positions, moved up by one, are positions in the whole sequence. */
  lemma {:induction false} ShiftTail<T>(s: seq<T>, p: T -> bool, rest: seq<int>)
    requires |s| > 0 && SelectsAt(s[1..], Filter(s[1..], p), p, rest)
    ensures var shifted, tail := Shift(rest), Filter(s[1..], p);
      && |shifted| == |tail|
      && (forall k :: 0 <= k < |shifted| ==> 1 <= shifted[k] < |s| && tail[k] == s[shifted[k]])
      && (forall k, l :: 0 <= k < l < |shifted| ==> shifted[k] < shifted[l])
      && (forall i :: 1 <= i < |s| ==> (p(s[i]) <==> i in shifted))
      && 0 !in shifted
  {
    var tail := Filter(s[1..], p);
    var shifted := Shift(rest);
    forall k | 0 <= k < |shifted|
      ensures 1 <= shifted[k] < |s| && tail[k] == s[shifted[k]]
    {
      assert s[1..][rest[k]] == s[rest[k] + 1];
    }
    forall i | 1 <= i < |s|
      ensures p(s[i]) <==> i in shifted
    {
      assert s[1..][i - 1] == s[i];
    }
  }

  /** When the head does not match, the tail's positions moved up by one select the whole filter. */
  lemma {:induction false} SkipSelects<T>(s: seq<T>, tail: seq<T>, p: T -> bool, shifted: seq<int>)
    requires |s| > 0 && !p(s[0]) && tail == Filter(s[1..], p)
    requires |shifted| == |tail|
    requires forall k :: 0 <= k < |shifted| ==> 1 <= shifted[k] < |s| && tail[k] == s[shifted[k]]
    requires forall k, l :: 0 <= k < l < |shifted| ==> shifted[k] < shifted[l]
    requires forall i :: 1 <= i < |s| ==> (p(s[i]) <==> i in shifted)
    requires 0 !in shifted
    ensures SelectsAt(s, Filter(s, p), p, shifted)
  {
    assert Filter(s, p) == tail;
    forall i | 0 <= i < |s|
      ensures p(s[i]) <==> i in shifted
    {
    }
  }

  /** When the head matches, putting position 0 in front of the tail's positions selects the whole filter. */
  lemma {:induction false} PrependSelects<T>(s: seq<T>, tail: seq<T>, p: T -> bool, shifted: seq<int>)
    requires |s| > 0 && p(s[0]) && tail == Filter(s[1..], p)
    requires |shifted| == |tail|
    requires forall k :: 0 <= k < |shifted| ==> 1 <= shifted[k] < |s| && tail[k] == s[shifted[k]]
    requires forall k, l :: 0 <= k < l < |shifted| ==> shifted[k] < shifted[l]
    requires forall i :: 1 <= i < |s| ==> (p(s[i]) <==> i in shifted)
    ensures SelectsAt(s, Filter(s, p), p, [0] + shifted)
  {
    var idx := [0] + shifted;
    var r := Filter(s, p);
    assert r == [s[0]] + tail;
    forall k | 0 <= k < |idx|
      ensures 0 <= idx[k] < |s| && r[k] == s[idx[k]]
    {
      if k > 0 {
        assert idx[k] == shifted[k - 1] && r[k] == tail[k - 1];
      }
    }
    PrependIncreasing(shifted);
    forall i | 0 <= i < |s|
      ensures p(s[i]) <==> i in idx
    {
      if i > 0 {
        assert i in idx <==> i in shifted;
      }
    }
  }

  /** Positions that are increasing and all at least 1 stay increasing with 0 in front. */
  lemma {:induction false} PrependIncreasing(shifted: seq<int>)
    requires forall k :: 0 <= k < |shifted| ==> 1 <= shifted[k]
    requires forall k, l :: 0 <= k < l < |shifted| ==> shifted[k] < shifted[l]
    ensures forall k, l :: 0 <= k < l < |[0] + shifted| ==> ([0] + shifted)[k] < ([0] + shifted)[l]
  {
    var idx := [0] + shifted;
    forall k, l | 0 <= k < l < |idx|
      ensures idx[k] < idx[l]
    {
      assert idx[l] == shifted[l - 1];
      if k > 0 {
        assert idx[k] == shifted[k - 1];
      }
    }
  }

  /** The filter's result is a selection of its input. */
  lemma FilterIsSelection<T>(s: seq<T>, p: T -> bool)
    ensures IsSelection(s, Filter(s, p), p)
  {
    var idx := FilterSelects(s, p);
  }

  /** The first element the filter keeps is the one `FirstIndex` finds. */
  lemma {:induction false} FilterHead<T>(s: seq<T>, p: T -> bool)
    ensures |Filter(s, p)| > 0 <==> FirstIndex(s, p) >= 0
    ensures |Filter(s, p)| > 0 ==> Filter(s, p)[0] == s[FirstIndex(s, p)]
    decreases |s|
  {
    if |s| > 0 && !p(s[0]) {
      FilterHead(s[1..], p);
    }
  }

  /** Filtering distributes over concatenation. */
  lemma {:induction false} FilterAppend<T>(a: seq<T>, b: seq<T>, p: T -> bool)
    ensures Filter(a + b, p) == Filter(a, p) + Filter(b, p)
    decreases |a|
  {
    if |a| > 0 {
      FilterAppend(a[1..], b, p);
      assert (a + b)[0] == a[0];
      assert (a + b)[1..] == a[1..] + b;
      if p(a[0]) {
        calc {
          Filter(a + b, p);
          [a[0]] + Filter(a[1..] + b, p);
          [a[0]] + (Filter(a[1..], p) + Filter(b, p));
          ([a[0]] + Filter(a[1..], p)) + Filter(b, p);
        }
      }
    } else {
      assert a + b == b;
    }
  }

  /** A predicate every element meets filters nothing out. */
  lemma {:induction false} FilterKeepsAll<T>(s: seq<T>, p: T -> bool)
    requires forall i :: 0 <= i < |s| ==> p(s[i])
    ensures Filter(s, p) == s
    decreases |s|
  {
    if |s| > 0 {
      FilterKeepsAll(s[1..], p);
    }
  }
}

=== FILE: scenario.dfy ===
/** A worked example of the catalogue: save one book, search it, mark it lent and update it. */
module Escenario {
  import opened JavaLang
  import opened Wrappers
  import opened Errors
  import opened Libros
  import opened LibrosFisicos
  import opened Streams
  import opened Repositorio

  /** The sample book of the walk-through. */
  function Quijote(): Libro {
    NewLibroFisico(1, "Don Quijote", "Cervantes", 1605, "Novela", "Estante A", 863)
  }

  /** Saving it into an empty catalogue succeeds and leaves it as the only book. */
  lemma QuijoteSaved()
    ensures Save(Empty, Quijote()) == Success(Stored(Repo([Quijote()]), Quijote()))
  {
  }

  /** A one-book catalogue answers a search with that book or with nothing. */
  lemma {:induction false} SearchOneBook(b: Libro, campo: string, valor: string, c: CampoBusqueda)
    requires ParseCampo(campo) == Some(c)
    ensures Contains(ToLowerCase(ValorDeCampo(b, c)), ToLowerCase(valor)) ==>
      BuscarPor(Repo([b]), campo, valor) == Success([b])
    ensures !Contains(ToLowerCase(ValorDeCampo(b, c)), ToLowerCase(valor)) ==>
      BuscarPor(Repo([b]), campo, valor) == Success([])
  {
    var p := CampoContiene(c, ToLowerCase(valor));
    assert Filter([b], p) == if p(b) then [b] else [];
  }

  /** The lower-cased title "don quijote" contains "quijote". */
  lemma TitleMatchesQuijote()
    ensures Contains(ToLowerCase("Don Quijote"), ToLowerCase("quijote"))
  {
    LowerThenFind("Don Quijote", "quijote", 4);
  }

  /** The lower-cased author "cervantes" does not contain "garcía". */
  lemma AuthorMissesGarcia()
    ensures !Contains(ToLowerCase("Cervantes"), ToLowerCase("garcía"))
  {
    LowerThenMiss("Cervantes", "garcía", 4);
  }

  /** When `h` holds `n` at index `i` up to case, the lowered `n` occurs in the lowered `h` there. */
  lemma {:induction false} LowerThenFind(h: string, n: string, i: nat)
    requires i + |n| <= |h|
    requires forall k :: 0 <= k < |n| ==> LowerChar(n[k]) == LowerChar(h[i + k])
    ensures Contains(ToLowerCase(h), ToLowerCase(n))
  {
    var r := ToLowerCase(h);
    var m := ToLowerCase(n);
    assert r[i..i + |m|] == m;
    assert OccursAt(r, m, i);
    ContainsIffOccurs(r, m);
  }

  /** A lower-case needle with a character that lowering `h` never produces is not found. */
  lemma {:induction false} LowerThenMiss(h: string, n: string, j: nat)
    requires j < |n|
    requires forall k :: 0 <= k < |n| ==> !IsUpper(n[k])
    requires forall k :: 0 <= k < |h| ==> LowerChar(h[k]) != n[j]
    ensures !Contains(ToLowerCase(h), ToLowerCase(n))
  {
    var r := ToLowerCase(h);
    ToLowerCaseFixesLowerText(n);
    ContainsIffOccurs(r, n);
    forall i | OccursAt(r, n, i)
      ensures false
    {
    }
  }

  /** "titulo" names the title field. */
  lemma TituloIsTitle()
    ensures ParseCampo("titulo") == Some(Titulo)
  {
    ToLowerCaseFixesLowerText("titulo");
  }

  /** "AUTOR" names the author field. */
  lemma AutorIsAuthor()
    ensures ParseCampo("AUTOR") == Some(Autor)
  {
    var f := ToLowerCase("AUTOR");
    assert forall i :: 0 <= i < 5 ==> f[i] == "autor"[i];
  }

  /** Searching the title for "quijote" finds it although the stored title is capitalised. */
  lemma QuijoteFoundByTitle()
    ensures BuscarPor(Repo([Quijote()]), "titulo", "quijote") == Success([Quijote()])
  {
    TituloIsTitle();
    TitleMatchesQuijote();
    SearchOneBook(Quijote(), "titulo", "quijote", Titulo);
  }

  /** Searching the author, with the field name in capitals, for "garcía" finds nothing. */
  lemma GarciaIsNotTheAuthor()
    ensures BuscarPor(Repo([Quijote()]), "AUTOR", "garcía") == Success([])
  {
    AutorIsAuthor();
    AuthorMissesGarcia();
    SearchOneBook(Quijote(), "AUTOR", "garcía", Autor);
  }

  /** A field the repository does not know is rejected. */
  lemma UnknownFieldRejected()
    ensures BuscarPor(Repo([Quijote()]), "isbn", "1605") == Failure(InvalidSearchField("isbn"))
  {
    var f := ToLowerCase("isbn");
    assert |f| == 4;
    assert f != "titulo" && f != "autor" && f != "genero";
  }

  /** Marking it unavailable and updating it keeps it stored but drops it from the available books. */
  lemma LentQuijoteNotAvailable()
    ensures Update(Repo([Quijote()]), SetDisponible(Quijote(), false)) ==
            Success(Stored(Repo([SetDisponible(Quijote(), false)]), SetDisponible(Quijote(), false)))
    ensures FindDisponibles(Repo([SetDisponible(Quijote(), false)])) == []
  {
    var b := Quijote();
    var lent := SetDisponible(b, false);
    var one := Repo([b]);
    assert lent.id == 1 && !lent.disponible;
    assert FindById(one, 1) == Some(b);
    assert FirstIndex(one.libros, IgualA(b)) == 0;
    assert Delete(one, b) == Empty;
    assert Update(one, lent) == Success(Stored(Repo([] + [lent]), lent));
    assert [] + [lent] == [lent];
    assert !EsDisponible()(lent);
    assert Filter([lent], EsDisponible()) == [];
  }
}

=== FILE: usuario.dfy ===
/**
  The abstract user entity (`Usuario`). Its concrete subclasses are not part of
  this model; each is represented by its class name together with the values its
  `getTipoUsuario` and `getLimiteLibros` return.
*/
module Usuarios {
  import opened JavaLang
  import opened Wrappers
  import opened Errors

  /** A concrete subclass of `Usuario`. */
  datatype ClaseUsuario = ClaseUsuario(nombreClase: string, tipoUsuario: string, limiteLibros: Int32)

  datatype Usuario = Usuario(id: Int32, nombre: string, email: string, telefono: string, clase: ClaseUsuario)

  /** The fields a setter can change. */
  datatype UsuarioField = UsuarioId | UsuarioNombre | UsuarioEmail | UsuarioTelefono

  /** `after` agrees with `before` on every field except possibly `f`; the class never changes. */
  predicate OnlyChanged(before: Usuario, after: Usuario, f: UsuarioField) {
    && (f == UsuarioId || after.id == before.id)
    && (f == UsuarioNombre || after.nombre == before.nombre)
    && (f == UsuarioEmail || after.email == before.email)
    && (f == UsuarioTelefono || after.telefono == before.telefono)
    && after.clase == before.clase
  }

  /** What the validating setters guard. */
  predicate ValidUsuario(u: Usuario) {
    u.id > 0 && !IsBlank(u.nombre) && '@' in u.email
  }

  /** The `Usuario` constructor as a subclass invokes it: stores everything as given and checks nothing. */
  function NewUsuario(clase: ClaseUsuario, id: Int32, nombre: string, email: string, telefono: string): (r: Usuario)
    ensures r.id == id && r.nombre == nombre && r.email == email && r.telefono == telefono
    ensures r.clase == clase
    ensures ValidUsuario(r) <==> id > 0 && !IsBlank(nombre) && '@' in email
  {
    Usuario(id, nombre, email, telefono, clase)
  }

  /** `setId`: rejects a non-positive id. */
  function SetId(u: Usuario, id: Int32): (r: Result<Usuario, Error>)
    ensures r.Failure? <==> id <= 0
    ensures r.Failure? ==> r.error == InvalidValue("id")
    ensures r.Success? ==> r.value.id == id && OnlyChanged(u, r.value, UsuarioId)
  {
    if id <= 0 then Failure(InvalidValue("id")) else Success(u.(id := id))
  }

  /** `setNombre`: rejects a name that is empty after trimming. */
  function SetNombre(u: Usuario, nombre: string): (r: Result<Usuario, Error>)
    ensures r.Failure? <==> forall i :: 0 <= i < |nombre| ==> nombre[i] <= ' '
    ensures r.Failure? ==> r.error == InvalidValue("nombre")
    ensures r.Success? ==> r.value.nombre == nombre && OnlyChanged(u, r.value, UsuarioNombre)
  {
    if IsBlank(nombre) then Failure(InvalidValue("nombre")) else Success(u.(nombre := nombre))
  }

  /** `setEmail`: rejects an address that does not contain "@"; any address that does is accepted. */
  function SetEmail(u: Usuario, email: string): (r: Result<Usuario, Error>)
    ensures r.Failure? <==> '@' !in email
    ensures r.Failure? ==> r.error == InvalidValue("email")
    ensures r.Success? ==> r.value.email == email && OnlyChanged(u, r.value, UsuarioEmail)
  {
    ContainsSingleChar(email, '@');
    if !Contains(email, "@") then Failure(InvalidValue("email")) else Success(u.(email := email))
  }

  /** `setTelefono`: accepts any phone number. */
  function SetTelefono(u: Usuario, telefono: string): (r: Usuario)
    ensures r.telefono == telefono && OnlyChanged(u, r, UsuarioTelefono)
  {
    u.(telefono := telefono)
  }

  /** A setter that succeeds never takes a valid user out of the valid state. */
  lemma SettersPreserveValidity(u: Usuario, id: Int32, nombre: string, email: string, telefono: string)
    requires ValidUsuario(u)
    ensures SetId(u, id).Success? ==> ValidUsuario(SetId(u, id).value)
    ensures SetNombre(u, nombre).Success? ==> ValidUsuario(SetNombre(u, nombre).value)
    ensures SetEmail(u, email).Success? ==> ValidUsuario(SetEmail(u, email).value)
    ensures ValidUsuario(SetTelefono(u, telefono))
  {
  }

  /** `equals`: same concrete class and same id. */
  predicate Equals(a: Usuario, b: Usuario): (r: bool)
    ensures a == b ==> r
    ensures r ==> HashCode(a) == HashCode(b)
    ensures a.clase.nombreClase != b.clase.nombreClase ==> !r
  {
    a.clase.nombreClase == b.clase.nombreClase && a.id == b.id
  }

  /** `equals` is an equivalence relation, and users of different classes are never equal. */
  lemma EqualsIsEquivalence(a: Usuario, b: Usuario, c: Usuario)
    ensures Equals(a, a)
    ensures Equals(a, b) ==> Equals(b, a)
    ensures Equals(a, b) && Equals(b, c) ==> Equals(a, c)
    ensures a.clase.nombreClase != b.clase.nombreClase ==> !Equals(a, b)
  {
  }

  /** `hashCode`: `Objects.hash(id)`, a function of the id alone. */
  function HashCode(u: Usuario): (h: Int32)
    ensures (h - u.id - 31) % 0x1_0000_0000 == 0
  {
    ObjectsHash(u.id)
  }

  /** Equal users hash alike, and equal hashes mean equal ids. */
  lemma HashCodeAgreesWithEquals(a: Usuario, b: Usuario)
    ensures Equals(a, b) ==> HashCode(a) == HashCode(b)
    ensures HashCode(a) == HashCode(b) <==> a.id == b.id
  {
    if HashCode(a) == HashCode(b) {
      ObjectsHashInjective(a.id, b.id);
    }
  }
}

=== FILE: wrappers.dfy ===
/** Failure-carrying return values used in place of `null`, `Optional` and exceptions. */
module Wrappers {

  /** `java.util.Optional`: either empty or holding one value. */
  datatype Option<+T> = None | Some(value: T)

  /** The outcome of an operation that may throw: its value, or the error it raised. */
  datatype Result<+T, +E> = Success(value: T) | Failure(error: E)
}
